=== FILE: README.md ===
# BatchRasterExtractor — a verified model of the zonal statistics pipeline

BatchRasterExtractor splits a polygon layer into one shapefile per feature.
It masks a shared raster with each shapefile and saves every masked subset
under a name read from the shapefile's first record. A shapefile with no
records reuses the name the previous shapefile left behind. It then attaches
per-pixel-value statistics to the subset's attribute table: the pixel
count, the area in km² and the percent of the subset.

This Dafny project models the part of the script that is logic rather than
ArcGIS tool calls:

- `ValueTable` (`value_table.dfy`): the masked raster's value table as a
  sequence of `(VALUE, COUNT)` rows. It also holds the first cursor walk,
  which builds the parallel `value_list` / `count_list` and the running
  `total_count`.
- `ZonalStats` (`zonal_stats.dfy`): the area and percent formulas and a
  reference definition of the statistics table as a map over the paired
  rows. It also holds the second cursor walk, which fills the scratch table
  by index from the parallel lists. The lemmas show the two walks compute
  the paired map. They also cover percent bounds, percents summing to 100
  and areas adding up to the subset's area.
- `Join` (`join.dfy`): the `JoinField` equality join on `VALUE`. The lemmas
  show the statistics table has exactly the value table's keys, so the join
  drops nothing and adds nothing.
- `Batch` (`batch.dfy`): the directory loop. It covers the `.shp` filter,
  the "first record wins" naming and one pass of the loop body. The pass
  covers the four ways the model tracks for it to raise; failures inside
  ArcGIS tools other than `ExtractByMask` are left out. The run stops at the first error, as the script does,
  and a later save under an existing name replaces the earlier raster.
- `Results` (`results.dfy`): `Option` and `Result`.

Parameters stand in for what the script gets from ArcGIS or from its
configuration:

- the pixel size `z` is a `real` parameter;
- a directory entry carries its file name and its records' naming-field
  strings, in cursor order;
- it also carries the value table `ExtractByMask` yields for it, or `None`
  when `ExtractByMask` raises.

Arithmetic is exact `real` arithmetic.

The model follows the code as written. Its header (lines 32-33) warns that
the script may crash when a polygon has no corresponding raster data:

- **No per-mask isolation.** The script has no exception handling, so the
  first failing mask ends the run (`RunBatch`, `FailureStopsBatch`).
  The subsets of the shapefiles before the failing one were each saved with
  their statistics, and the failing mask's own subset may have been saved
  after them without statistics (`FailedRunKeepsEarlierSubsets`). These are
  saves, not what is left on disk. A later save under the same name
  replaces an earlier raster on disk, and the failing mask's unjoined subset
  can replace a joined one this way when the name was carried over.
- **Empty subset.** With an empty value table, neither cursor loop binds
  `row` or `searched_row`. The `del row` at line 159 therefore raises
  `NameError` after the subset has been saved. The run stops with
  `EmptyValueTable`. The percent computation itself does not fail on an
  empty table.
- **Zero total count.** If the table has rows but every `COUNT` is zero,
  the first percent division raises (`ZeroTotalCount`), also after the save.
- **Naming.**
  - The name is the naming field of the first record only
    (`CompletedRunNames`).
  - A shapefile with no records leaves `raster_name` as the previous
    shapefile set it, because it is a module-level variable. Its subset is
    saved under the previous subset's name (`CompletedRunCarriesName`).
  - On the first shapefile the name is unbound and the save raises
    (`RasterNameUnbound`).
  - Two subsets with the same name do not raise an error: the later save
    silently overwrites the earlier one (`SavedRasters`, `LastSaveWins`).
    Overwriting is allowed because the script sets `overwriteOutput`.

## Model

| member | source | states |
|---|---|---|
| ValueTable.ScanValueTable | Batch_Raster_Extractor_Python.py:118-125 | value_list and count_list have one entry per cursor row, entry i taken from row i in cursor order, and total_count is the sum of COUNT over all rows |
| ValueTable.CountAtMostTotal | Batch_Raster_Extractor_Python.py:121-125 | no row's COUNT exceeds the accumulated total_count |
| ValueTable.TotalZeroIffNoPixels | Batch_Raster_Extractor_Python.py:121-125 | total_count is zero exactly when every row counts zero pixels |
| ZonalStats.Area | Batch_Raster_Extractor_Python.py:154 | the km² area of a row is never negative |
| ZonalStats.Percent | Batch_Raster_Extractor_Python.py:155 | with a positive total, a count no larger than the total gives a percent in [0, 100], and the whole total gives 100 |
| ZonalStats.ZonalStatistics | Batch_Raster_Extractor_Python.py:118-157 | the statistics block raises exactly when the table has rows and every COUNT is zero (the division by total_count at line 155) |
| ZonalStats.PairedStatsPointwise | Batch_Raster_Extractor_Python.py:147-157 | the statistics table has one row per value-table row, in order, and row i is computed from row i's VALUE and COUNT alone |
| ZonalStats.BuildStatisticsTable | Batch_Raster_Extractor_Python.py:145-157 | the insert loop fails exactly when there is a row to insert and total_count is 0; otherwise it inserts one row per list index, with VALUE = value_list[i], area and percent from count_list[i] |
| ZonalStats.ComputeZonalStatistics | Batch_Raster_Extractor_Python.py:118-157 | building parallel value/count lists and then indexing them computes the same table, or the same failure, as mapping over the paired (VALUE, COUNT) rows |
| ZonalStats.PercentsWithinRange | Batch_Raster_Extractor_Python.py:155 | every percent of a successful statistics table lies in [0, 100] |
| ZonalStats.SumPercentIsShareOfTotal | Batch_Raster_Extractor_Python.py:121-155 | the percents of a table sum to 100 times the table's pixel total over the divisor |
| ZonalStats.PercentsSumToHundred | Batch_Raster_Extractor_Python.py:121-155 | over exact reals the percents of a successful non-empty table sum to exactly 100 |
| ZonalStats.AreasSumToSubsetArea | Batch_Raster_Extractor_Python.py:154 | the areas of the table add up to the area of all the subset's pixels |
| ZonalStats.AreaIsAdditive | Batch_Raster_Extractor_Python.py:154 | area is linear in the pixel count: the area of a + b pixels is the sum of their areas |
| ZonalStats.WorkedExample | Batch_Raster_Extractor_Python.py:118-157 | 300 m pixels with rows (1, 10) and (2, 30) give rows (1, 0.9 km², 25 %) and (2, 2.7 km², 75 %) |
| Join.Lookup | Batch_Raster_Extractor_Python.py:170 | a statistics row is found for a VALUE exactly when that VALUE is a key of the table, and the row found carries that VALUE |
| Join.JoinField | Batch_Raster_Extractor_Python.py:167-170 | the join keeps every value-table row in order with its VALUE and COUNT, and fills area and percent exactly when the row's VALUE is a key of the statistics table |
| Join.StatisticsKeysAreValueKeys | Batch_Raster_Extractor_Python.py:149-153 | the set of VALUE keys in the statistics table equals the set of VALUE keys read from the subset |
| Join.JoinMatchesEveryRow | Batch_Raster_Extractor_Python.py:145-170 | joining a subset's own statistics keeps its row count and leaves no row without area and percent |
| Join.LookupIsFirstMatch | Batch_Raster_Extractor_Python.py:170 | when several statistics rows carry a key, the lookup returns the earliest one |
| Join.LookupFindsOnlyMatch | Batch_Raster_Extractor_Python.py:170 | with distinct keys, the match for a key is the one row carrying it |
| Join.JoinAttachesOwnStatistics | Batch_Raster_Extractor_Python.py:149-170 | when VALUEs are distinct, joined row i carries row i's own area z·z·count/10⁶ and percent count·100/total |
| Batch.ShapefileIffShpSuffix | Batch_Raster_Extractor_Python.py:101 | a file name passes the filter exactly when it is some stem followed by ".shp" |
| Batch.Shapefiles | Batch_Raster_Extractor_Python.py:100-101 | the loop body runs for exactly the listing's ".shp" entries, each taken from the listing |
| Batch.ShapefilesKeepListingOrder | Batch_Raster_Extractor_Python.py:100-101 | filtering a concatenated listing filters each part and keeps them in listing order, so shapefiles are processed in os.listdir order with their multiplicity |
| Batch.ShapefilesOfOne | Batch_Raster_Extractor_Python.py:101 | a single entry survives the filter exactly when its name ends in ".shp" |
| Batch.ReadRasterName | Batch_Raster_Extractor_Python.py:104-107 | the cursor loop that assigns and then breaks yields the first record's naming field, and a shapefile without records leaves the previous name in place |
| Batch.FirstRecordWins | Batch_Raster_Extractor_Python.py:105-107 | records after the first, and any earlier name, never affect the name of a shapefile that has a record |
| Batch.ProcessMask | Batch_Raster_Extractor_Python.py:101-173 | a pass completes exactly when ExtractByMask succeeds, a name is bound, the table is non-empty and its total is positive, and then saves the subset with its joined statistics under the first-record name; each stop is tied to its cause: ExtractByMask raising (line 110), the unbound name at the save (line 113), the zero divisor (line 155), the empty table at `del row` (line 159); a raster is left saved exactly when the failure comes after the save, and it is the subset's own value table, unjoined, under the name the save used |
| Batch.RunBatch | Batch_Raster_Extractor_Python.py:100-173 | the loop saves at most one subset per directory entry, and in a run that completes every saved subset has area and percent on every row |
| Batch.RunBatchCoversShapefiles | Batch_Raster_Extractor_Python.py:100-173 | a run saves at most one subset per shapefile, as many as there are shapefiles when it completes, and a failure names a shapefile of the listing |
| Batch.CompletedRunFollowsShapefiles | Batch_Raster_Extractor_Python.py:100-170 | in a run that completes, saved subset k is shapefile k's own masked value table joined with its own statistics |
| Batch.CompletedRunNames | Batch_Raster_Extractor_Python.py:104-113 | in a run that completes, the subset of a shapefile with records is saved under its first record's naming field |
| Batch.FirstShapefileKeepsName | Batch_Raster_Extractor_Python.py:104-113 | in a run that completes, when the first shapefile has no records its subset is saved under the name left by earlier passes |
| Batch.NamesCarriedCons | Batch_Raster_Extractor_Python.py:104-113 | a subset saved in front of a run keeps the carried-name property when the next shapefile, if it has no records, reuses that subset's name |
| Batch.CompletedRunCarriesName | Batch_Raster_Extractor_Python.py:104-113 | in a run that completes, a shapefile with no records saves its subset under the name of the subset saved just before it, so that save replaces the earlier raster on disk |
| Batch.FailedRunKeepsEarlierSubsets | Batch_Raster_Extractor_Python.py:100-173 | a failed run stopped at some shapefile k named by the failure: the saves of subsets 0..k-1 were made, each as its own value table joined with its own statistics, and at most shapefile k's own unjoined subset is saved besides |
| Batch.BatchIgnoresOtherFiles | Batch_Raster_Extractor_Python.py:100-101 | running on the whole listing equals running on its ".shp" entries alone |
| Batch.FailureStopsBatch | Batch_Raster_Extractor_Python.py:100-173 | once a prefix of the listing has failed, entries after it change nothing: the run aborts at the first error |
| Batch.SavedRasters | Batch_Raster_Extractor_Python.py:113 | the rasters on disk are named by exactly the names the subsets were saved under |
| Batch.LastSaveWins | Batch_Raster_Extractor_Python.py:113 | each name on disk holds the subset saved last under that name |

## Left out

- ArcGIS and Spatial Analyst calls are not modelled. They are foreign
  library calls whose semantics is not visible here. This covers
  `SplitLayerByAttributes` (line 85), `ApplySymbologyFromLayer_management`
  (line 92), `CheckOutExtension` (line 96), and the geometry of
  `ExtractByMask` and `.save` (lines 110-113).
- `CreateTable_management` and `AddField_management` (lines 135-141) and the
  cursor mechanics are not modelled either. A cursor is a sequence of rows,
  and `ExtractByMask` is a per-entry value table or a failure.
- Which row ArcGIS's `JoinField` picks among duplicate keys is not known,
  so the model takes the first matching row (`LookupIsFirstMatch`). The
  table built from a raster's own value table never holds a key twice.
- File-system effects are not modelled: `os.makedirs` (lines 64, 69), the
  `tmp.dbf` exists/remove steps (lines 131-133, 172-173) and the console
  `print` calls.
- IEEE double rounding of area and percent is not modelled. The model uses
  exact reals, so the percents sum to exactly 100 only over reals.
- The 32-bit range of the LONG `VALUE` field is not modelled; values are
  unbounded integers.
- The placeholder and broken lines are not modelled: `z = ???` (line 75),
  the undefined `name` at line 85 and the literal `name_1.name_vector` at
  line 106. The pixel size is a real parameter. The naming field is an
  abstract string per record.
- ZonalStats.Area: states only that the area is never negative. It does
  not state that the area is zero exactly when the count is zero (for a
  non-zero pixel size).
- Per-mask error isolation, a final success/failure report and
  naming-collision detection are not modelled. The script has none of them.

=== FILE: batch.dfy ===
/**
 * The batch loop over the split-out vector directory: pick the shapefiles,
 * name each subset after its first record, mask the raster, compute and
 * join the statistics, stopping at the first error.
 */
module Batch {
  import opened Results
  import opened ValueTable
  import opened ZonalStats
  import opened Join

  /** Why a run stopped. */
  datatype BatchError =
    | MaskMismatch                    // ExtractByMask raised: the mask has no raster coverage
    | RasterNameUnbound               // no shapefile so far had a record, so the subset has no name
    | StatisticsFailed(e: StatsError) // the percent division raised
    | EmptyValueTable                 // no cursor row was read, so deleting the row variables raised

  /**
   * One directory entry: its file name and, for a shapefile, the naming
   * field of each of its records in cursor order and the value table
   * ExtractByMask yields for it (None when ExtractByMask raises).
   */
  datatype DirEntry = DirEntry(fileName: string, records: seq<string>, extraction: Option<seq<ValueRow>>)

  /** A saved raster subset: the name it was saved under and its attribute table. */
  datatype SubsetOutput = SubsetOutput(name: string, table: seq<JoinedRow>)

  /** Where a run stopped, and on which file. */
  datatype BatchFailure = BatchFailure(fileName: string, error: BatchError)

  /** Subsets saved in order, and the failure that stopped the run, if any. */
  datatype BatchRun = BatchRun(outputs: seq<SubsetOutput>, failure: Option<BatchFailure>)

  const ShpSuffix: string := ".shp"

  /** Case-sensitive suffix test on the file name. */
  predicate IsShapefile(fileName: string)
  {
    |ShpSuffix| <= |fileName| && fileName[|fileName| - |ShpSuffix|..] == ShpSuffix
  }

  /** A name passes the filter exactly when it is some stem followed by ".shp". */
  lemma ShapefileIffShpSuffix(fileName: string)
    ensures IsShapefile(fileName) <==> exists stem :: fileName == stem + ShpSuffix
  {
    if IsShapefile(fileName) {
      var stem := fileName[..|fileName| - |ShpSuffix|];
      assert fileName == stem + ShpSuffix;
    }
    if exists stem :: fileName == stem + ShpSuffix {
      var stem :| fileName == stem + ShpSuffix;
      assert fileName[|fileName| - |ShpSuffix|..] == ShpSuffix;
    }
  }

  /** The directory entries the loop body runs for, in listing order. */
  function Shapefiles(entries: seq<DirEntry>): (shps: seq<DirEntry>)
    ensures |shps| <= |entries|
    ensures forall e :: e in shps ==> e in entries && IsShapefile(e.fileName)
    ensures forall e :: e in entries && IsShapefile(e.fileName) ==> e in shps
  {
    if entries == [] then []
    else
      var rest := Shapefiles(entries[1..]);
      assert forall e :: e in entries && e != entries[0] ==> e in entries[1..];
      if IsShapefile(entries[0].fileName) then [entries[0]] + rest else rest
  }

  /** Filtering a concatenated listing filters each part and keeps them in order. */
  lemma {:induction false} ShapefilesKeepListingOrder(a: seq<DirEntry>, b: seq<DirEntry>)
    ensures Shapefiles(a + b) == Shapefiles(a) + Shapefiles(b)
  {
    if a == [] {
      assert a + b == b;
    } else {
      assert (a + b)[0] == a[0];
      assert (a + b)[1..] == a[1..] + b;
      ShapefilesKeepListingOrder(a[1..], b);
    }
  }

  /** A single entry survives the filter exactly when it is a shapefile. */
  lemma ShapefilesOfOne(e: DirEntry)
    ensures Shapefiles([e]) == if IsShapefile(e.fileName) then [e] else []
  {
    assert [e][1..] == [];
  }

  /**
   * The raster name after reading one shapefile's records: the first
   * record's naming field; with no record the name variable keeps the value
   * the previous shapefile left in it.
   */
  function NextRasterName(previous: Option<string>, records: seq<string>): Option<string>
  {
    if records != [] then Some(records[0]) else previous
  }

  /**
   * The naming cursor walk: assign the first record's naming field, then
   * break out of the loop; with no record the loop body never runs.
   */
  method ReadRasterName(previous: Option<string>, records: seq<string>) returns (name: Option<string>)
    ensures name == NextRasterName(previous, records)
  {
    name := previous;
    for i := 0 to |records|
      invariant i == 0 ==> name == previous
    {
      name := Some(records[i]);
      break;
    }
  }

  /** First record wins: what follows the first record, and any earlier name, never matters. */
  lemma FirstRecordWins(previous: Option<string>, other: Option<string>, first: string, rest: seq<string>, rest': seq<string>)
    ensures NextRasterName(previous, [first] + rest) == NextRasterName(other, [first] + rest') == Some(first)
  {
  }

  /** What one pass of the loop body leaves behind. */
  datatype MaskOutcome =
    | Completed(output: SubsetOutput, name: string)
    | Stopped(saved: seq<SubsetOutput>, error: BatchError)

  /**
   * One pass of the loop body for a shapefile: name, mask, save, compute the
   * statistics, join. `lastName` is the raster name left by earlier passes.
   */
  function ProcessMask(z: real, e: DirEntry, lastName: Option<string>): (outcome: MaskOutcome)
    ensures outcome.Completed? ==> e.extraction.Some? && e.extraction.value != []
    ensures outcome.Completed? ==> ZonalStatistics(z, e.extraction.value).Success?
    ensures outcome.Completed? ==> (outcome.output ==
      SubsetOutput(outcome.name, JoinField(e.extraction.value, ZonalStatistics(z, e.extraction.value).value)))
    ensures outcome.Completed? ==> Some(outcome.name) == NextRasterName(lastName, e.records)
    ensures e.extraction.None? <==> outcome.Stopped? && outcome.error == MaskMismatch
    ensures outcome.Stopped? ==> |outcome.saved| <= 1
    ensures outcome.Stopped? ==>
      (|outcome.saved| == 1 <==> outcome.error.StatisticsFailed? || outcome.error.EmptyValueTable?)
    ensures (outcome.Stopped? && outcome.error == RasterNameUnbound)
      <==> e.extraction.Some? && NextRasterName(lastName, e.records).None?
    ensures (outcome.Stopped? && outcome.error.StatisticsFailed?)
      <==> && e.extraction.Some? && NextRasterName(lastName, e.records).Some?
           && e.extraction.value != [] && Total(e.extraction.value) == 0
    ensures (outcome.Stopped? && outcome.error == EmptyValueTable)
      <==> e.extraction.Some? && NextRasterName(lastName, e.records).Some? && e.extraction.value == []
    ensures (&& e.extraction.Some? && e.extraction.value != [] && Total(e.extraction.value) > 0
             && NextRasterName(lastName, e.records).Some?) ==> outcome.Completed?
    ensures outcome.Stopped? && |outcome.saved| == 1 ==>
      && e.extraction.Some? && NextRasterName(lastName, e.records).Some?
      && outcome.saved[0] == SubsetOutput(NextRasterName(lastName, e.records).value, JoinField(e.extraction.value, []))
  {
    var name := NextRasterName(lastName, e.records);
    match e.extraction
    case None => Stopped([], MaskMismatch)
    case Some(rows) =>
      TotalZeroIffNoPixels(rows);
      if name.None? then Stopped([], RasterNameUnbound)
      else
        var saved := SubsetOutput(name.value, JoinField(rows, []));
        match ZonalStatistics(z, rows)
        case Failure(err) => Stopped([saved], StatisticsFailed(err))
        case Success(stats) =>
          if rows == [] then Stopped([saved], EmptyValueTable)
          else Completed(SubsetOutput(name.value, JoinField(rows, stats)), name.value)
  }

  /**
   * The loop over the directory listing, in listing order, stopping at the
   * first pass that raises. `lastName` is the raster name left by the
   * shapefiles already processed; a run starts with none.
   */
  function RunBatch(z: real, entries: seq<DirEntry>, lastName: Option<string>): (run: BatchRun)
    ensures |run.outputs| <= |entries|
    ensures run.failure.None? ==> forall k :: 0 <= k < |run.outputs| ==> FullyJoined(run.outputs[k].table)
  {
    if entries == [] then BatchRun([], None)
    else
      var e := entries[0];
      if !IsShapefile(e.fileName) then RunBatch(z, entries[1..], lastName)
      else
        match ProcessMask(z, e, lastName)
        case Stopped(saved, err) => BatchRun(saved, Some(BatchFailure(e.fileName, err)))
        case Completed(output, name) =>
          JoinMatchesEveryRow(z, e.extraction.value);
          var rest := RunBatch(z, entries[1..], Some(name));
          BatchRun([output] + rest.outputs, rest.failure)
  }

  /**
   * A run saves at most one subset per shapefile, one for each when it
   * completes, and a failure names a shapefile of the listing.
   */
  lemma {:induction false} RunBatchCoversShapefiles(z: real, entries: seq<DirEntry>, lastName: Option<string>)
    ensures |RunBatch(z, entries, lastName).outputs| <= |Shapefiles(entries)|
    ensures RunBatch(z, entries, lastName).failure.None? ==>
      |RunBatch(z, entries, lastName).outputs| == |Shapefiles(entries)|
    ensures RunBatch(z, entries, lastName).failure.Some? ==>
      exists e :: e in entries && IsShapefile(e.fileName) && e.fileName == RunBatch(z, entries, lastName).failure.value.fileName
  {
    if entries != [] {
      var e := entries[0];
      assert forall x :: x in entries[1..] ==> x in entries;
      if !IsShapefile(e.fileName) {
        RunBatchCoversShapefiles(z, entries[1..], lastName);
      } else {
        var outcome := ProcessMask(z, e, lastName);
        if outcome.Completed? {
          RunBatchCoversShapefiles(z, entries[1..], Some(outcome.name));
        }
      }
    }
  }

  /** A saved table is the entry's own masked value table joined with its own statistics. */
  predicate OwnJoin(z: real, e: DirEntry, table: seq<JoinedRow>)
  {
    && e.extraction.Some?
    && ZonalStatistics(z, e.extraction.value).Success?
    && table == JoinField(e.extraction.value, ZonalStatistics(z, e.extraction.value).value)
  }

  /**
   * In a run that completes, the k-th saved subset is the k-th shapefile's
   * own masked value table joined with its own statistics.
   */
  lemma {:induction false} CompletedRunFollowsShapefiles(z: real, entries: seq<DirEntry>, lastName: Option<string>)
    requires RunBatch(z, entries, lastName).failure.None?
    ensures |RunBatch(z, entries, lastName).outputs| == |Shapefiles(entries)|
    ensures forall k :: 0 <= k < |Shapefiles(entries)| ==>
      OwnJoin(z, Shapefiles(entries)[k], RunBatch(z, entries, lastName).outputs[k].table)
  {
    RunBatchCoversShapefiles(z, entries, lastName);
    if entries != [] {
      var e := entries[0];
      if !IsShapefile(e.fileName) {
        CompletedRunFollowsShapefiles(z, entries[1..], lastName);
      } else {
        var outcome := ProcessMask(z, e, lastName);
        CompletedRunFollowsShapefiles(z, entries[1..], Some(outcome.name));
        var run := RunBatch(z, entries, lastName);
        var shps := Shapefiles(entries);
        assert shps[0] == e && shps[1..] == Shapefiles(entries[1..]);
        forall k | 0 <= k < |shps|
          ensures OwnJoin(z, shps[k], run.outputs[k].table)
        {
          if k > 0 {
            assert shps[k] == Shapefiles(entries[1..])[k - 1];
          }
        }
      }
    }
  }

  /**
   * In a run that completes, a shapefile with records saves its subset under
   * its first record's naming field.
   */
  lemma {:induction false} CompletedRunNames(z: real, entries: seq<DirEntry>, lastName: Option<string>)
    requires RunBatch(z, entries, lastName).failure.None?
    ensures |RunBatch(z, entries, lastName).outputs| == |Shapefiles(entries)|
    ensures forall k :: 0 <= k < |Shapefiles(entries)| && Shapefiles(entries)[k].records != [] ==>
      RunBatch(z, entries, lastName).outputs[k].name == Shapefiles(entries)[k].records[0]
  {
    RunBatchCoversShapefiles(z, entries, lastName);
    if entries != [] {
      var e := entries[0];
      if !IsShapefile(e.fileName) {
        CompletedRunNames(z, entries[1..], lastName);
      } else {
        var outcome := ProcessMask(z, e, lastName);
        CompletedRunNames(z, entries[1..], Some(outcome.name));
        RunBatchCoversShapefiles(z, entries[1..], Some(outcome.name));
        var run := RunBatch(z, entries, lastName);
        var shps := Shapefiles(entries);
        assert shps[0] == e && shps[1..] == Shapefiles(entries[1..]);
        forall k | 0 <= k < |shps| && shps[k].records != []
          ensures run.outputs[k].name == shps[k].records[0]
        {
          if k > 0 {
            assert shps[k] == Shapefiles(entries[1..])[k - 1];
            assert run.outputs[k] == RunBatch(z, entries[1..], Some(outcome.name)).outputs[k - 1];
          }
        }
      }
    }
  }

  /**
   * In a run that completes, the first shapefile saves under the name left
   * by earlier passes when it has no records.
   */
  lemma {:induction false} FirstShapefileKeepsName(z: real, entries: seq<DirEntry>, lastName: Option<string>)
    requires RunBatch(z, entries, lastName).failure.None?
    requires Shapefiles(entries) != [] && Shapefiles(entries)[0].records == []
    ensures RunBatch(z, entries, lastName).outputs != []
    ensures Some(RunBatch(z, entries, lastName).outputs[0].name) == lastName
  {
    assert entries != [];
    var e := entries[0];
    if !IsShapefile(e.fileName) {
      assert Shapefiles(entries) == Shapefiles(entries[1..]);
      FirstShapefileKeepsName(z, entries[1..], lastName);
    } else {
      assert Shapefiles(entries)[0] == e;
    }
  }

  /**
   * Saved subset k carries the name of subset k - 1 whenever shapefile k
   * has no records.
   */
  predicate NamesCarried(shps: seq<DirEntry>, outputs: seq<SubsetOutput>)
    requires |outputs| == |shps|
  {
    forall k :: 0 < k < |shps| && shps[k].records == [] ==> outputs[k].name == outputs[k - 1].name
  }

  /** Prepending a saved subset keeps names carried when the next shapefile without records reuses its name. */
  lemma NamesCarriedCons(e: DirEntry, output: SubsetOutput, shps: seq<DirEntry>, outputs: seq<SubsetOutput>)
    requires |outputs| == |shps| && NamesCarried(shps, outputs)
    requires shps != [] && shps[0].records == [] ==> outputs[0].name == output.name
    ensures NamesCarried([e] + shps, [output] + outputs)
  {
    var shps', outputs' := [e] + shps, [output] + outputs;
    forall k | 0 < k < |shps'| && shps'[k].records == []
      ensures outputs'[k].name == outputs'[k - 1].name
    {
      assert shps'[k] == shps[k - 1] && outputs'[k] == outputs[k - 1];
      if k > 1 {
        assert outputs'[k - 1] == outputs[k - 2];
      }
    }
  }

  /**
   * In a run that completes, a shapefile with no records saves its subset
   * under the name of the subset saved just before it, so the later save
   * replaces the earlier raster.
   */
  lemma {:induction false} CompletedRunCarriesName(z: real, entries: seq<DirEntry>, lastName: Option<string>)
    requires RunBatch(z, entries, lastName).failure.None?
    ensures |RunBatch(z, entries, lastName).outputs| == |Shapefiles(entries)|
    ensures NamesCarried(Shapefiles(entries), RunBatch(z, entries, lastName).outputs)
  {
    RunBatchCoversShapefiles(z, entries, lastName);
    if entries != [] {
      var e := entries[0];
      if !IsShapefile(e.fileName) {
        CompletedRunCarriesName(z, entries[1..], lastName);
      } else {
        var outcome := ProcessMask(z, e, lastName);
        var rest := RunBatch(z, entries[1..], Some(outcome.name));
        CompletedRunCarriesName(z, entries[1..], Some(outcome.name));
        var restShps := Shapefiles(entries[1..]);
        assert Shapefiles(entries) == [e] + restShps;
        assert RunBatch(z, entries, lastName).outputs == [outcome.output] + rest.outputs;
        if restShps != [] && restShps[0].records == [] {
          FirstShapefileKeepsName(z, entries[1..], Some(outcome.name));
        }
        NamesCarriedCons(e, outcome.output, restShps, rest.outputs);
      }
    }
  }

  /**
   * A failed run stopped at shapefile k: the failure names it, the subsets
   * before it were saved with their own statistics, and at most its own
   * unjoined subset was saved besides.
   */
  predicate FailedAt(z: real, entries: seq<DirEntry>, run: BatchRun, k: int)
    requires run.failure.Some?
  {
    var shps := Shapefiles(entries);
    && 0 <= k < |shps|
    && shps[k].fileName == run.failure.value.fileName
    && k <= |run.outputs| <= k + 1
    && (forall j :: 0 <= j < k ==> OwnJoin(z, shps[j], run.outputs[j].table))
    && (|run.outputs| == k + 1 ==>
          shps[k].extraction.Some? && run.outputs[k].table == JoinField(shps[k].extraction.value, []))
  }

  /**
   * A failed run keeps every subset saved before the failing shapefile, each
   * with its own statistics, plus at most the failing shapefile's unjoined
   * subset.
   */
  lemma {:induction false} FailedRunKeepsEarlierSubsets(z: real, entries: seq<DirEntry>, lastName: Option<string>)
    requires RunBatch(z, entries, lastName).failure.Some?
    ensures exists k :: FailedAt(z, entries, RunBatch(z, entries, lastName), k)
  {
    assert entries != [];
    var e := entries[0];
    var run := RunBatch(z, entries, lastName);
    var shps := Shapefiles(entries);
    if !IsShapefile(e.fileName) {
      FailedRunKeepsEarlierSubsets(z, entries[1..], lastName);
      var k :| FailedAt(z, entries[1..], RunBatch(z, entries[1..], lastName), k);
      assert FailedAt(z, entries, run, k);
    } else {
      assert shps[0] == e && shps[1..] == Shapefiles(entries[1..]);
      match ProcessMask(z, e, lastName)
      case Stopped(saved, err) =>
        assert FailedAt(z, entries, run, 0);
      case Completed(output, name) =>
        FailedRunKeepsEarlierSubsets(z, entries[1..], Some(name));
        var k :| FailedAt(z, entries[1..], RunBatch(z, entries[1..], Some(name)), k);
        FailedAtAfterCompletedPass(z, entries, lastName, name, k);
    }
  }

  /** A pass that completes shifts the failing position of the rest of the run by one. */
  lemma FailedAtAfterCompletedPass(z: real, entries: seq<DirEntry>, lastName: Option<string>, name: string, k: int)
    requires entries != [] && IsShapefile(entries[0].fileName)
    requires ProcessMask(z, entries[0], lastName).Completed?
    requires ProcessMask(z, entries[0], lastName).name == name
    requires RunBatch(z, entries[1..], Some(name)).failure.Some?
    requires FailedAt(z, entries[1..], RunBatch(z, entries[1..], Some(name)), k)
    ensures RunBatch(z, entries, lastName).failure.Some?
    ensures FailedAt(z, entries, RunBatch(z, entries, lastName), k + 1)
  {
    var e := entries[0];
    var output := ProcessMask(z, e, lastName).output;
    var run := RunBatch(z, entries, lastName);
    var rest := RunBatch(z, entries[1..], Some(name));
    var shps := Shapefiles(entries);
    assert shps[0] == e && shps[1..] == Shapefiles(entries[1..]);
    assert run.outputs == [output] + rest.outputs;
    forall j | 0 <= j < k + 1
      ensures OwnJoin(z, shps[j], run.outputs[j].table)
    {
      if j > 0 {
        assert shps[j] == Shapefiles(entries[1..])[j - 1];
        assert run.outputs[j] == rest.outputs[j - 1];
      }
    }
    assert shps[k + 1] == Shapefiles(entries[1..])[k];
    assert |run.outputs| == k + 2 ==> run.outputs[k + 1] == rest.outputs[k];
  }

  /** Entries that are not shapefiles are skipped without touching any state. */
  lemma {:induction false} BatchIgnoresOtherFiles(z: real, entries: seq<DirEntry>, lastName: Option<string>)
    ensures RunBatch(z, entries, lastName) == RunBatch(z, Shapefiles(entries), lastName)
  {
    if entries != [] {
      var e := entries[0];
      if !IsShapefile(e.fileName) {
        BatchIgnoresOtherFiles(z, entries[1..], lastName);
      } else {
        var shps := Shapefiles(entries);
        assert shps[0] == e && shps[1..] == Shapefiles(entries[1..]);
        var outcome := ProcessMask(z, e, lastName);
        if outcome.Completed? {
          BatchIgnoresOtherFiles(z, entries[1..], Some(outcome.name));
        }
      }
    }
  }

  /** The run is fail-fast: once a prefix of the listing has failed, later entries change nothing. */
  lemma {:induction false} FailureStopsBatch(z: real, done: seq<DirEntry>, later: seq<DirEntry>, lastName: Option<string>)
    requires RunBatch(z, done, lastName).failure.Some?
    ensures RunBatch(z, done + later, lastName) == RunBatch(z, done, lastName)
  {
    assert done != [];
    var e := done[0];
    var all := done + later;
    assert all[0] == e && all[1..] == done[1..] + later;
    if !IsShapefile(e.fileName) {
      FailureStopsBatch(z, done[1..], later, lastName);
      assert RunBatch(z, all, lastName) == RunBatch(z, all[1..], lastName);
    } else {
      match ProcessMask(z, e, lastName)
      case Stopped(saved, err) =>
        assert RunBatch(z, all, lastName) == BatchRun(saved, Some(BatchFailure(e.fileName, err)));
      case Completed(output, name) =>
        FailureStopsBatch(z, done[1..], later, Some(name));
    }
  }

  /** The rasters left on disk: a later subset saved under an existing name replaces the earlier one. */
  function SavedRasters(outputs: seq<SubsetOutput>): (saved: map<string, seq<JoinedRow>>)
    ensures saved.Keys == set o | o in outputs :: o.name
  {
    if outputs == [] then map[]
    else
      var last := outputs[|outputs| - 1];
      var init := outputs[..|outputs| - 1];
      assert forall o :: o in outputs <==> o in init || o == last;
      SavedRasters(init)[last.name := last.table]
  }

  /** Each name on disk holds the subset saved last under that name. */
  lemma {:induction false} LastSaveWins(outputs: seq<SubsetOutput>, i: int)
    requires 0 <= i < |outputs|
    requires forall j :: i < j < |outputs| ==> outputs[j].name != outputs[i].name
    ensures outputs[i].name in SavedRasters(outputs)
    ensures SavedRasters(outputs)[outputs[i].name] == outputs[i].table
  {
    if i < |outputs| - 1 {
      var init := outputs[..|outputs| - 1];
      LastSaveWins(init, i);
    }
  }
}

=== FILE: join.dfy ===
/**
 * The equality join on VALUE that attaches the statistics table's area and
 * percent columns to the masked raster's value table.
 */
module Join {
  import opened Results
  import opened ValueTable
  import opened ZonalStats

  /** A value-table row after the join; area and percent stay null when no statistics row matched. */
  datatype JoinedRow = JoinedRow(value: int, count: nat, area: Option<real>, percent: Option<real>)

  /** The set of VALUE keys the statistics table carries. */
  function StatKeys(stats: seq<StatRow>): set<int>
  {
    set s | s in stats :: s.value
  }

  /** A statistics table with at most one row per VALUE. */
  predicate DistinctKeys(stats: seq<StatRow>)
  {
    forall j, k :: 0 <= j < k < |stats| ==> stats[j].value != stats[k].value
  }

  /** The first statistics row whose VALUE equals `v`, if any (see LookupIsFirstMatch). */
  function Lookup(stats: seq<StatRow>, v: int): (m: Option<StatRow>)
    ensures m.Some? <==> v in StatKeys(stats)
    ensures m.Some? ==> m.value in stats && m.value.value == v
  {
    if stats == [] then None
    else if stats[0].value == v then Some(stats[0])
    else
      assert forall s :: s in stats[1..] ==> s in stats;
      assert forall s :: s in stats && s != stats[0] ==> s in stats[1..];
      Lookup(stats[1..], v)
  }

  /** The value-table row with the matched statistics row's columns attached. */
  function Attach(row: ValueRow, m: Option<StatRow>): JoinedRow
  {
    match m
    case None => JoinedRow(row.0, row.1, None, None)
    case Some(s) => JoinedRow(row.0, row.1, Some(s.area), Some(s.percent))
  }

  /**
   * The join: every value-table row is kept, in order, with its own VALUE and
   * COUNT; it gains area and percent exactly when its VALUE is a key of the
   * statistics table.
   */
  function JoinField(rows: seq<ValueRow>, stats: seq<StatRow>): (joined: seq<JoinedRow>)
    ensures |joined| == |rows|
    ensures forall i :: 0 <= i < |rows| ==>
      && joined[i].value == rows[i].0 && joined[i].count == rows[i].1
      && (joined[i].area.Some? <==> rows[i].0 in StatKeys(stats))
      && (joined[i].percent.Some? <==> rows[i].0 in StatKeys(stats))
  {
    seq(|rows|, i requires 0 <= i < |rows| => Attach(rows[i], Lookup(stats, rows[i].0)))
  }

  /** A table every row of which received area and percent. */
  predicate FullyJoined(joined: seq<JoinedRow>)
  {
    forall i :: 0 <= i < |joined| ==> joined[i].area.Some? && joined[i].percent.Some?
  }

  /** The statistics table carries exactly the VALUE keys of the value table it was built from. */
  lemma StatisticsKeysAreValueKeys(z: real, rows: seq<ValueRow>, total: nat)
    requires total > 0 || rows == []
    ensures StatKeys(PairedStats(z, rows, total)) == Keys(rows)
  {
    var stats := PairedStats(z, rows, total);
    PairedStatsPointwise(z, rows, total);
    forall v | v in Keys(rows)
      ensures v in StatKeys(stats)
    {
      var i :| 0 <= i < |rows| && rows[i].0 == v;
      assert stats[i] in stats;
    }
    forall v | v in StatKeys(stats)
      ensures v in Keys(rows)
    {
      var i :| 0 <= i < |stats| && stats[i].value == v;
      assert rows[i] in rows;
    }
  }

  /**
   * Joining a subset's own statistics table drops no value-table row, adds
   * no row and leaves no row without area and percent.
   */
  lemma JoinMatchesEveryRow(z: real, rows: seq<ValueRow>)
    requires ZonalStatistics(z, rows).Success?
    ensures |JoinField(rows, ZonalStatistics(z, rows).value)| == |rows|
    ensures FullyJoined(JoinField(rows, ZonalStatistics(z, rows).value))
  {
    StatisticsKeysAreValueKeys(z, rows, Total(rows));
    forall i | 0 <= i < |rows|
      ensures rows[i].0 in Keys(rows)
    {
      assert rows[i] in rows;
    }
  }

  /** Among several rows carrying a key, the lookup picks the earliest one. */
  lemma {:induction false} LookupIsFirstMatch(stats: seq<StatRow>, v: int, i: int)
    requires 0 <= i < |stats| && stats[i].value == v
    requires forall j :: 0 <= j < i ==> stats[j].value != v
    ensures Lookup(stats, v) == Some(stats[i])
  {
    if i > 0 {
      LookupIsFirstMatch(stats[1..], v, i - 1);
    }
  }

  /** With distinct keys, the match for a key is the only row carrying it. */
  lemma LookupFindsOnlyMatch(stats: seq<StatRow>, i: int)
    requires 0 <= i < |stats|
    requires DistinctKeys(stats)
    ensures Lookup(stats, stats[i].value) == Some(stats[i])
  {
    LookupIsFirstMatch(stats, stats[i].value, i);
  }

  /**
   * When the value table has one row per distinct pixel value, row i of the
   * joined table carries row i's own area and percent.
   */
  lemma JoinAttachesOwnStatistics(z: real, rows: seq<ValueRow>, i: int)
    requires ZonalStatistics(z, rows).Success?
    requires DistinctValues(rows)
    requires 0 <= i < |rows|
    ensures Total(rows) > 0
    ensures JoinField(rows, ZonalStatistics(z, rows).value)[i]
      == JoinedRow(rows[i].0, rows[i].1, Some(Area(z, rows[i].1)), Some(Percent(rows[i].1, Total(rows))))
  {
    var total := Total(rows);
    CountAtMostTotal(rows, i);
    var stats := ZonalStatistics(z, rows).value;
    PairedStatsPointwise(z, rows, total);
    LookupFindsOnlyMatch(stats, i);
  }
}

=== FILE: results.dfy ===
/** Failure-carrying wrappers shared by the modules of the raster extractor model. */
module Results {

  /** A value that may be absent: an unassigned Python name, an unmatched join key. */
  datatype Option<+T> = None | Some(value: T)

  /** The outcome of a step that can raise: its value, or the error that aborted it. */
  datatype Result<+T, +E> = Success(value: T) | Failure(error: E)
}

=== FILE: value_table.dfy ===
/** The masked raster's value table, read through a search cursor as (VALUE, COUNT) rows. */
module ValueTable {

  /** One row of the value table: a pixel VALUE and its pixel COUNT. */
  type ValueRow = (int, nat)

  /** Sum of COUNT over the rows, accumulated in cursor order (the last row is added last). */
  function Total(rows: seq<ValueRow>): nat
  {
    if rows == [] then 0 else Total(rows[..|rows| - 1]) + rows[|rows| - 1].1
  }

  /** The set of VALUE keys the rows carry. */
  function Keys(rows: seq<ValueRow>): set<int>
  {
    set row | row in rows :: row.0
  }

  /** A raster's value table holds one row per distinct pixel value. */
  predicate DistinctValues(rows: seq<ValueRow>)
  {
    forall i, j :: 0 <= i < j < |rows| ==> rows[i].0 != rows[j].0
  }

  /** No single row counts more pixels than the whole table. */
  lemma {:induction false} CountAtMostTotal(rows: seq<ValueRow>, i: int)
    requires 0 <= i < |rows|
    ensures rows[i].1 <= Total(rows)
  {
    if i < |rows| - 1 {
      CountAtMostTotal(rows[..|rows| - 1], i);
    }
  }

  /** The total is zero exactly when every row counts zero pixels. */
  lemma {:induction false} TotalZeroIffNoPixels(rows: seq<ValueRow>)
    ensures Total(rows) == 0 <==> forall i :: 0 <= i < |rows| ==> rows[i].1 == 0
  {
    if rows != [] {
      var init := rows[..|rows| - 1];
      TotalZeroIffNoPixels(init);
      assert forall i :: 0 <= i < |init| ==> init[i] == rows[i];
    }
  }

  /**
   * The first cursor walk: builds the parallel value and count lists and the
   * running pixel total, one row at a time in cursor order.
   */
  method ScanValueTable(rows: seq<ValueRow>) returns (valueList: seq<int>, countList: seq<nat>, totalCount: nat)
    ensures |valueList| == |rows| && |countList| == |rows|
    ensures forall i :: 0 <= i < |rows| ==> valueList[i] == rows[i].0 && countList[i] == rows[i].1
    ensures totalCount == Total(rows)
  {
    valueList, countList, totalCount := [], [], 0;
    var i := 0;
    while i < |rows|
      invariant 0 <= i <= |rows|
      invariant |valueList| == i && |countList| == i
      invariant forall k :: 0 <= k < i ==> valueList[k] == rows[k].0 && countList[k] == rows[k].1
      invariant totalCount == Total(rows[..i])
    {
      var row := rows[i];
      valueList := valueList + [row.0];
      countList := countList + [row.1];
      totalCount := totalCount + row.1;
      assert rows[..i + 1][..i] == rows[..i];
      i := i + 1;
    }
    assert rows[..|rows|] == rows;
  }
}

=== FILE: zonal_stats.dfy ===
/**
 * Zonal statistics of one raster subset: per pixel value, its area in square
 * kilometres and its share of the subset's pixels, one statistics row per
 * value-table row.
 */
module ZonalStats {
  import opened Results
  import opened ValueTable

  /** Dividing the running total when it is zero raises ZeroDivisionError. */
  datatype StatsError = ZeroTotalCount

  /** One row of the scratch statistics table: VALUE (LONG), area and percent (DOUBLE). */
  datatype StatRow = StatRow(value: int, area: real, percent: real)

  /** Square metres in a square kilometre. */
  const SquareMetresPerKm2: real := 1000000.0

  /** Area covered by `count` pixels whose side is `z` metres, in square kilometres. */
  function Area(z: real, count: nat): (a: real)
    ensures a >= 0.0
  {
    SquareIsNonNegative(z);
    z * z * (count as real) / SquareMetresPerKm2
  }

  lemma SquareIsNonNegative(z: real)
    ensures z * z >= 0.0
  {
    if z < 0.0 {
      assert z * z == (-z) * (-z);
    }
  }

  /** Share of the subset's pixels that `count` represents, in percent. */
  function Percent(count: nat, total: nat): (p: real)
    requires total > 0
    ensures count <= total ==> 0.0 <= p <= 100.0
    ensures count == total ==> p == 100.0
  {
    (count as real) * 100.0 / (total as real)
  }

  /** The statistics row computed for one value-table row. */
  function StatRowOf(z: real, row: ValueRow, total: nat): StatRow
    requires total > 0
  {
    StatRow(row.0, Area(z, row.1), Percent(row.1, total))
  }

  /**
   * Reference definition: the statistics table as a map over the paired
   * (VALUE, COUNT) rows, with no parallel lists.
   */
  function PairedStats(z: real, rows: seq<ValueRow>, total: nat): seq<StatRow>
    requires total > 0 || rows == []
  {
    if rows == [] then []
    else PairedStats(z, rows[..|rows| - 1], total) + [StatRowOf(z, rows[|rows| - 1], total)]
  }

  /** The whole statistics block: fails only where the percent division would divide by zero. */
  function ZonalStatistics(z: real, rows: seq<ValueRow>): (r: Result<seq<StatRow>, StatsError>)
    ensures r.Failure? <==> rows != [] && forall i :: 0 <= i < |rows| ==> rows[i].1 == 0
  {
    TotalZeroIffNoPixels(rows);
    if rows != [] && Total(rows) == 0 then Failure(ZeroTotalCount)
    else Success(PairedStats(z, rows, Total(rows)))
  }

  function SumPercent(stats: seq<StatRow>): real
  {
    if stats == [] then 0.0 else SumPercent(stats[..|stats| - 1]) + stats[|stats| - 1].percent
  }

  function SumArea(stats: seq<StatRow>): real
  {
    if stats == [] then 0.0 else SumArea(stats[..|stats| - 1]) + stats[|stats| - 1].area
  }

  /** Row i of the paired map is computed from row i of the value table, and from nothing else. */
  lemma {:induction false} PairedStatsPointwise(z: real, rows: seq<ValueRow>, total: nat)
    requires total > 0 || rows == []
    ensures |PairedStats(z, rows, total)| == |rows|
    ensures forall i :: 0 <= i < |rows| ==> PairedStats(z, rows, total)[i] == StatRowOf(z, rows[i], total)
  {
    if rows != [] {
      var init := rows[..|rows| - 1];
      PairedStatsPointwise(z, init, total);
      assert forall i :: 0 <= i < |init| ==> init[i] == rows[i];
    }
  }

  /**
   * The second cursor walk: one statistics row per index of the parallel
   * lists, VALUE from the value list, area and percent from the count list.
   * It walks the same value table as the first walk, so it visits exactly
   * |valueList| rows and both lists have that length.
   */
  method BuildStatisticsTable(z: real, valueList: seq<int>, countList: seq<nat>, totalCount: nat)
    returns (r: Result<seq<StatRow>, StatsError>)
    requires |valueList| == |countList|
    ensures r.Failure? <==> valueList != [] && totalCount == 0
    ensures r.Success? ==> |r.value| == |valueList|
    ensures r.Success? ==> forall i :: 0 <= i < |valueList| ==>
      r.value[i] == StatRow(valueList[i], Area(z, countList[i]), Percent(countList[i], totalCount))
  {
    var table: seq<StatRow> := [];
    var index := 0;
    while index < |valueList|
      invariant 0 <= index <= |valueList|
      invariant index > 0 ==> totalCount > 0
      invariant |table| == index
      invariant forall i :: 0 <= i < index ==>
        table[i] == StatRow(valueList[i], Area(z, countList[i]), Percent(countList[i], totalCount))
    {
      if totalCount == 0 {
        return Failure(ZeroTotalCount);
      }
      var row := StatRow(valueList[index], Area(z, countList[index]), Percent(countList[index], totalCount));
      table := table + [row];
      index := index + 1;
    }
    return Success(table);
  }

  /**
   * Both cursor walks together: the parallel-list construction computes
   * exactly the paired map over the value table's rows.
   */
  method ComputeZonalStatistics(z: real, rows: seq<ValueRow>) returns (r: Result<seq<StatRow>, StatsError>)
    ensures r == ZonalStatistics(z, rows)
  {
    var valueList, countList, totalCount := ScanValueTable(rows);
    r := BuildStatisticsTable(z, valueList, countList, totalCount);
    if r.Failure? {
      assert rows != [] && Total(rows) == 0;
      assert r == Failure(r.error) && r.error.ZeroTotalCount?;
      assert ZonalStatistics(z, rows) == Failure(ZeroTotalCount) == r;
    } else {
      PairedStatsPointwise(z, rows, totalCount);
      assert r.value == PairedStats(z, rows, totalCount);
      assert ZonalStatistics(z, rows) == Success(PairedStats(z, rows, totalCount)) == r;
    }
  }

  /** Every statistics row's percent lies between 0 and 100. */
  lemma PercentsWithinRange(z: real, rows: seq<ValueRow>)
    requires ZonalStatistics(z, rows).Success?
    ensures forall s :: s in ZonalStatistics(z, rows).value ==> 0.0 <= s.percent <= 100.0
  {
    var total := Total(rows);
    var stats := ZonalStatistics(z, rows).value;
    PairedStatsPointwise(z, rows, total);
    forall s | s in stats
      ensures 0.0 <= s.percent <= 100.0
    {
      var i :| 0 <= i < |stats| && stats[i] == s;
      CountAtMostTotal(rows, i);
    }
  }

  lemma DivisionDistributes(a: real, b: real, t: real)
    requires t != 0.0
    ensures a / t + b / t == (a + b) / t
  {
  }

  /** The percents of a table sum to the share of all its pixels in the divisor. */
  lemma {:induction false} SumPercentIsShareOfTotal(z: real, rows: seq<ValueRow>, total: nat)
    requires total > 0
    ensures SumPercent(PairedStats(z, rows, total)) == (Total(rows) as real) * 100.0 / (total as real)
  {
    if rows != [] {
      var init := rows[..|rows| - 1];
      var last := rows[|rows| - 1];
      SumPercentIsShareOfTotal(z, init, total);
      var stats := PairedStats(z, rows, total);
      assert stats[..|stats| - 1] == PairedStats(z, init, total);
      DivisionDistributes((Total(init) as real) * 100.0, (last.1 as real) * 100.0, total as real);
    }
  }

  /** Over exact reals the percents of a successful statistics table sum to exactly 100. */
  lemma PercentsSumToHundred(z: real, rows: seq<ValueRow>)
    requires rows != []
    requires ZonalStatistics(z, rows).Success?
    ensures SumPercent(ZonalStatistics(z, rows).value) == 100.0
  {
    var total := Total(rows);
    assert total > 0;
    assert ZonalStatistics(z, rows).value == PairedStats(z, rows, total);
    SumPercentIsShareOfTotal(z, rows, total);
    assert (total as real) * 100.0 / (total as real) == 100.0;
  }

  /** The areas of a statistics table add up to the area of all the subset's pixels. */
  lemma {:induction false} AreasSumToSubsetArea(z: real, rows: seq<ValueRow>, total: nat)
    requires total > 0 || rows == []
    ensures SumArea(PairedStats(z, rows, total)) == Area(z, Total(rows))
  {
    if rows != [] {
      var init := rows[..|rows| - 1];
      AreasSumToSubsetArea(z, init, total);
      var stats := PairedStats(z, rows, total);
      assert stats[..|stats| - 1] == PairedStats(z, init, total);
      AreaIsAdditive(z, Total(init), rows[|rows| - 1].1);
    }
  }

  /** Area is linear in the pixel count. */
  lemma AreaIsAdditive(z: real, a: nat, b: nat)
    ensures Area(z, a + b) == Area(z, a) + Area(z, b)
  {
    DivisionDistributes(z * z * (a as real), z * z * (b as real), SquareMetresPerKm2);
  }

  /** With 300-metre pixels, 10 and 30 pixels cover 0.9 and 2.7 km², that is 25 and 75 percent. */
  lemma WorkedExample()
    ensures ZonalStatistics(300.0, [(1, 10), (2, 30)])
      == Success([StatRow(1, 0.9, 25.0), StatRow(2, 2.7, 75.0)])
  {
    var rows: seq<ValueRow> := [(1, 10), (2, 30)];
    assert rows[..1] == [(1, 10)];
    assert rows[..1][..0] == [];
    assert Total(rows) == 40;
    assert StatRowOf(300.0, (1, 10), 40) == StatRow(1, 0.9, 25.0);
    assert StatRowOf(300.0, (2, 30), 40) == StatRow(2, 2.7, 75.0);
    assert PairedStats(300.0, rows[..1], 40) == [StatRow(1, 0.9, 25.0)];
    assert PairedStats(300.0, rows, 40) == [StatRow(1, 0.9, 25.0), StatRow(2, 2.7, 75.0)];
  }
}
